=== FILE: README.md ===
# Owl behaviour controller, modelled in Dafny

SuperTux's Owl is a flying badguy. It patrols horizontally and turns round when it hits a wall.
It carries one portable object, by default a `skydive`, and drops it on the player. This
project models the Owl's controller (`src/badguy/owl.cpp`) as pure functions over an immutable
`OwlState`:

- the facing `dir`;
- the `frozen` flag;
- the badguy state;
- the non-owning handle `carried` of the carried object;
- the configured `carryName`;
- the physics record `phys` (vx, vy, y-acceleration, gravity switch);
- the sprite action name;
- the collision box.

Every handler returns the new state together with a log of `Event`s. The log records the
handler's effects on collaborators: factory requests, sector registration, `grab`/`ungrab`
calls, the player's bounce, and calls into the generic badguy base.

Modules:

- `Maybe`: the optional value used for null handles and absent players.
- `Geometry`: directions, points, boxes, collision hits. Coordinates are `real`.
- `Events`: the event log and `Count`, which counts events of a kind.
- `Owl`: the constants `FlyingSpeed` = 120 and `ActivationDistance` = 128 (`FLYING_SPEED` and
  `ACTIVATION_DISTANCE` at src/badguy/owl.cpp:32-33), the data model and every handler of the
  controller.
- `OwlTrace`: arbitrary sequences of handler calls (`Step`, `Run`) and the guarantees that hold
  over whole lifetimes.

`DropAnchor` places the object 16 left of the bottom centre and 3 below the bottom edge,
whatever the facing. The source marks 16 as a stand-in for the carried object's half width
(src/badguy/owl.cpp:115).

## Model

| member | source | states |
|---|---|---|
| `Owl.Construct` | src/badguy/owl.cpp:37-44 | a new Owl carries nothing, is neither frozen nor falling, and shows the action of its facing; its carried-object name is the `carry` value of the configuration, or `skydive` when the key is absent |
| `Owl.Save` | src/badguy/owl.cpp:46-50 | saving writes the carried-object name under `carry` and keeps every other key the base wrote |
| `Owl.SaveLoadRoundTrip` | src/badguy/owl.cpp:42-49 | loading what was saved gives back the same carried-object name |
| `Owl.Velocity` | src/badguy/owl.cpp:55 | flying velocity has magnitude 120 and is negative exactly when facing left |
| `Owl.EnterFlight` | src/badguy/owl.cpp:55-57 | entering flight makes velocity, gravity and action agree with the facing and changes nothing else |
| `Owl.Initialize` | src/badguy/owl.cpp:52-84 | after initialisation velocity, gravity and action agree with the facing. With the editor active nothing is requested or registered and the handle is untouched. Otherwise exactly one factory request is made. A missing object leaves the handle as it was. A non-portable object clears the handle and is not registered. A portable one becomes the handle and is registered exactly once. No grab or ungrab happens |
| `Owl.ReinitializeForgetsHandle` | src/badguy/owl.cpp:67-83 | initialisation does not look at an existing handle: run again while carrying, it replaces the handle without any ungrab |
| `Owl.Release` | src/badguy/owl.cpp:141-144 | a release ungrabs exactly when something is carried, naming that handle and the facing, and leaves the handle null with nothing else changed |
| `Owl.ReleaseIdempotent` | src/badguy/owl.cpp:141-162 | a second release, as in the kill-fall nested in a squish, finds nothing and emits no event |
| `Owl.LeadOffset` | src/badguy/owl.cpp:95 | the activation offset is +128 facing left and -128 facing right |
| `Owl.IsAbovePlayer` | src/badguy/owl.cpp:86-102 | with no nearest player the test is false. Otherwise it is true exactly when the player's box is at or below the Owl's bottom edge and, moved by the lead offset, overlaps the Owl's open horizontal span |
| `Owl.ActivationWindow` | src/badguy/owl.cpp:95-101 | a player below the Owl triggers the drop exactly when the player's left edge lies strictly inside a window fixed by the Owl's edges, the offset and the player's width. The window's bounds do not trigger |
| `Owl.ActivationRequiresLead` | src/badguy/owl.cpp:93-101 | for an Owl no wider than 128, a drop needs the player's box to stick out ahead of the Owl in its direction of travel, past the Owl's leading edge |
| `Owl.ActivationNotWithinSpan` | src/badguy/owl.cpp:95-101 | for an Owl no wider than 128, a player whose box lies within the Owl's horizontal span never triggers the drop |
| `Owl.DropAnchor` | src/badguy/owl.cpp:114-116 | the anchor is 16 left of the bottom centre and 3 below the bottom edge, and does not depend on the facing |
| `Owl.ActivationMirror` | src/badguy/owl.cpp:95-101 | mirroring both boxes and the facing leaves the test's answer unchanged |
| `Owl.ActivationTranslate` | src/badguy/owl.cpp:99-101 | moving both boxes by the same vector leaves the test's answer unchanged |
| `Owl.NearEdge` | src/badguy/owl.cpp:119 | the edge test holds exactly when the anchor x is not strictly between 16 and the sector width minus 16 |
| `Owl.ActiveUpdate` | src/badguy/owl.cpp:104-132 | a tick first runs the base update. Frozen or empty-handed, there is no grab and no ungrab. Otherwise exactly one of these happens. Either one ungrab of the held handle, exactly when the player is below or the anchor is near an edge, after which the handle is null. Or one grab of the held handle at the anchor, which is then at least 16 inside both edges. The handle is null afterwards exactly when ungrab was called. Nothing else but position and vy changes |
| `Owl.CollisionSolid` | src/badguy/owl.cpp:194-216 | when frozen, only the base handler runs. A top or bottom hit zeroes vy and nothing else, even if a side is also hit. A side-only hit flips the facing, sets vx to 120 signed by the new facing and the action to its name. The facing changes exactly on a side-only hit when not frozen. The handle never changes |
| `Geometry.Flip` | src/badguy/owl.cpp:205-213 | turning round always changes the facing |
| `Owl.SideBounceTwiceRestores` | src/badguy/owl.cpp:204-214 | two side hits in a row return a flying Owl to exactly its previous state |
| `Owl.KillFall` | src/badguy/owl.cpp:150-166 | falling dead zeroes vy and y-acceleration, enables gravity and sets the state to falling. It ungrabs exactly when something was carried and leaves the handle null. The log starts with the fall sound and ends with the dead-script |
| `Owl.CollisionSquished` | src/badguy/owl.cpp:134-148 | a squish always reports success. It bounces the player exactly when there is one. It ends in the kill-fall state with the handle null, and ungrabs exactly once if something was carried, and never otherwise |
| `Owl.Freeze` | src/badguy/owl.cpp:168-177 | freezing ungrabs exactly when something was carried, clears the handle, enables gravity and ends with the base freeze |
| `Owl.Unfreeze` | src/badguy/owl.cpp:179-186 | unfreezing re-enters flight just as initialisation does, keeps the handle and facing, and calls only the base unfreeze |
| `Owl.IsFreezable` | src/badguy/owl.cpp:188-192 | an Owl is always freezable |
| `Owl.Ignite` | src/badguy/owl.cpp:218-226 | igniting ungrabs a carried object before the base ignite and clears the handle; with nothing carried only the base ignite runs |
| `OwlTrace.Step` | src/badguy/owl.cpp:104-226 | every handler conserves the carried object: ungrabs plus "still held" equals "held before". A handle held afterwards is the one held before. No handler creates or registers an object. Every grab and ungrab names the held handle. The state invariant is preserved. The facing changes only on a side-only hit when not frozen |
| `OwlTrace.RunReleasesOnce` | src/badguy/owl.cpp:104-226 | over any sequence of handler calls, the object is ungrabbed at most once, and exactly once if it is no longer held |
| `OwlTrace.RunNeverAcquires` | src/badguy/owl.cpp:104-226 | over any sequence of handler calls, a handle held at the end is the one held at the start, and no object is requested or registered |
| `OwlTrace.RunTouchesOnlyHeld` | src/badguy/owl.cpp:104-226 | over any sequence of calls, every grab and ungrab names the handle held at the start, and there are none when nothing was held |
| `OwlTrace.RunKeepsConsistent` | src/badguy/owl.cpp:52-226 | over any sequence of calls the invariant holds. A held object implies not frozen and not falling. Unfrozen and not falling, velocity, gravity and action agree with the facing |
| `OwlTrace.RunFacing` | src/badguy/owl.cpp:194-216 | after any sequence of calls the facing is the original one flipped once per side-only hit received while unfrozen |
| `OwlTrace.Lifetime` | src/badguy/owl.cpp:52-226 | from construction and initialisation onward, at most one object is requested. It is registered only if it is held. It is ungrabbed at most once. Every grab and ungrab names it. The invariant holds at the end |

## Left out

- The generic badguy base (`BadGuy::active_update`, `freeze`, `unfreeze`, `ignite`, `collision_solid`, `set_state`, `run_dead_script`) is not part of this model. Each call is a log event.
- The base's freeze and unfreeze are assumed to set and clear the frozen flag. Nothing else about them is modelled.
- The base's per-tick physics integration is an input of `ActiveUpdate`: the new box and the new vertical velocity. vx is kept, since the Owl never sets a horizontal acceleration.
- The base's ignite is not assumed to change the state; the model leaves the state as it is after ignite.
- `get_anchor_pos(…, ANCHOR_BOTTOM)` is not part of this model. It is taken to give the bottom centre of the box.
- The factory, `Sector::add_object`, `get_nearest_player` and `get_width` are inputs: the factory result with its portable flag, the optional nearest-player box, and the sector width.
- `Editor::is_active()` is the `editorActive` parameter of `Initialize`.
- `player->bounce` is only the `Bounce` event; the sound is only the `FallSound` event. Sprite playback keeps only the action name.
- Logging of the fatal and warning messages in `initialize` is left out. Both cases are otherwise modelled.
- Reading and writing the level file is modelled as key/value maps. Only the `carry` key, its `skydive` default and the base's other keys are kept.
- Float arithmetic is modelled with `real`. The sums at src/badguy/owl.cpp:100-101, 115 and 119 round in single precision, so the model's drop and edge decisions can differ from the source when the two compared values lie within float rounding error of each other (for example a player edge at 400 + 2^-15 plus 128 rounds to exactly 528).
- `OwlTrace.Lifetime` covers one initialisation. What happens when the base re-runs `initialize` is described by `Owl.ReinitializeForgetsHandle` only.

=== FILE: events.dfy ===
/**
  The Owl's effects on its collaborators, recorded as a log of events: calls
  of the carried object's grab/ungrab protocol, the factory and the sector,
  the player's bounce, and the hooks of the generic badguy base whose code is
  not part of this model.
 */
module Events {
  import opened Geometry

  /** Identity of a game object owned by the sector (a non-owning handle). */
  type Handle = nat

  datatype Event =
    | Create(name: string, pos: Vec, dir: Direction)   // factory asked for an object
    | AddObject(obj: Handle)                           // object registered with the sector
    | Grab(obj: Handle, pos: Vec, dir: Direction)      // carried object pinned at `pos`
    | Ungrab(obj: Handle, dir: Direction)              // carried object let go
    | Bounce                                           // nearest player bounced off the Owl
    | FallSound                                        // the falling sound is played
    | DeadScript                                       // the dead-script is started
    | BaseActiveUpdate                                 // the base's per-tick update
    | BaseCollisionSolid(hit: Hit)                     // the base's solid-collision handler
    | BaseFreeze
    | BaseUnfreeze
    | BaseIgnite

  /** The events that concern the lifecycle of a carried object. */
  datatype Kind = CreateKind | AddKind | GrabKind | UngrabKind

  predicate IsOfKind(e: Event, k: Kind)
  {
    match k
    case CreateKind => e.Create?
    case AddKind => e.AddObject?
    case GrabKind => e.Grab?
    case UngrabKind => e.Ungrab?
  }

  /** How many events of kind `k` the log holds. */
  function Count(log: seq<Event>, k: Kind): (n: nat)
    ensures n <= |log|
    ensures |log| == 1 ==> (n == 1 <==> IsOfKind(log[0], k))
  {
    if |log| == 0 then 0
    else (if IsOfKind(log[0], k) then 1 else 0) + Count(log[1..], k)
  }

  lemma {:induction false} CountAppend(a: seq<Event>, b: seq<Event>, k: Kind)
    ensures Count(a + b, k) == Count(a, k) + Count(b, k)
  {
    if |a| == 0 {
      assert a + b == b;
    } else {
      assert (a + b)[1..] == a[1..] + b;
      CountAppend(a[1..], b, k);
    }
  }

  lemma CountAppendAll(a: seq<Event>, b: seq<Event>)
    ensures forall k :: Count(a + b, k) == Count(a, k) + Count(b, k)
  {
    forall k
      ensures Count(a + b, k) == Count(a, k) + Count(b, k)
    {
      CountAppend(a, b, k);
    }
  }

  /** Events that name an existing object by its handle. */
  predicate NamesObject(e: Event)
  {
    e.AddObject? || e.Grab? || e.Ungrab?
  }

  /** Every event of the log that names an object names `h`. */
  predicate OnlyHandle(log: seq<Event>, h: Handle)
  {
    forall i :: 0 <= i < |log| && NamesObject(log[i]) ==> log[i].obj == h
  }

  /** No event of the log names an object. */
  predicate NoHandle(log: seq<Event>)
  {
    forall i :: 0 <= i < |log| ==> !NamesObject(log[i])
  }
}

=== FILE: geometry.dfy ===
/**
  The small amount of plane geometry the Owl needs: facing directions,
  points, axis-aligned boxes and collision-hit flags.  Coordinates are `real`.
  The game's single-precision sums round, so a comparison can come out
  differently when the two compared values are within float rounding error
  of each other.  As in the game, y grows downward.
 */
module Geometry {

  datatype Direction = Left | Right

  /** The opposite facing. */
  function Flip(d: Direction): (r: Direction)
    ensures r != d
  {
    if d == Left then Right else Left
  }

  lemma FlipInvolution(d: Direction)
    ensures Flip(Flip(d)) == d
  {
  }

  datatype Vec = Vec(x: real, y: real)

  /** An axis-aligned box: `p1` is the top-left corner, `p2` the bottom-right. */
  datatype Rect = Rect(p1: Vec, p2: Vec)

  /** Which sides of a solid a collision touched. */
  datatype Hit = Hit(left: bool, right: bool, top: bool, bottom: bool)

  /** The bottom-centre point of a box (the bottom anchor of the game's anchor points). */
  function BottomAnchor(r: Rect): Vec
  {
    Vec((r.p1.x + r.p2.x) / 2.0, r.p2.y)
  }

  /** The box moved horizontally by `dx`. */
  function ShiftX(r: Rect, dx: real): Rect
  {
    Rect(Vec(r.p1.x + dx, r.p1.y), Vec(r.p2.x + dx, r.p2.y))
  }

  /** The box moved by the vector `d`. */
  function Translate(r: Rect, d: Vec): Rect
  {
    Rect(Vec(r.p1.x + d.x, r.p1.y + d.y), Vec(r.p2.x + d.x, r.p2.y + d.y))
  }

  /** The box reflected in the vertical axis x = 0. */
  function Mirror(r: Rect): Rect
  {
    Rect(Vec(-r.p2.x, r.p1.y), Vec(-r.p1.x, r.p2.y))
  }

  /** `a`'s top edge is at or below `b`'s bottom edge. */
  predicate IsBelow(a: Rect, b: Rect)
  {
    a.p1.y >= b.p2.y
  }

  /** The open horizontal spans of `a` and `b` intersect. */
  predicate OverlapX(a: Rect, b: Rect)
  {
    a.p1.x < b.p2.x && b.p1.x < a.p2.x
  }
}

=== FILE: maybe.dfy ===
/** An optional value, used for the source's nullable handles and query results. */
module Maybe {

  /** `None` plays the part of a null pointer; `Some(v)` a live reference to `v`. */
  datatype Option<+T> = None | Some(value: T)
}

=== FILE: owl.dfy ===
/**
  The Owl: a flying badguy that patrols horizontally, carries one portable
  object (by default a "skydive") and drops it on the player.  Each handler of
  the game object is a pure function from the Owl's state (and the inputs the
  game would supply: factory result, nearest player, sector width) to the new
  state and the log of effects it had on its collaborators.
 */
module Owl {
  import opened Maybe
  import opened Geometry
  import opened Events

  const FlyingSpeed: real := 120.0
  const ActivationDistance: real := 128.0
  /** The object carried when the level does not name one. */
  const DefaultCarry: string := "skydive"
  /** The configuration key naming the carried object. */
  const CarryKey: string := "carry"
  /** Horizontal shift and vertical gap of the carried object's anchor. */
  const AnchorShiftX: real := 16.0
  const AnchorGapY: real := 3.0
  /** Distance from the sector's left and right edges inside which the carried object is dropped. */
  const EdgeMargin: real := 16.0

  /** The part of the base's state that the Owl sets: it only ever marks itself falling. */
  datatype BadguyState = Active | Falling

  /** The Owl's physics record: velocities, vertical acceleration, gravity switch. */
  datatype Physic = Physic(vx: real, vy: real, ay: real, gravity: bool)

  datatype OwlState = OwlState(
    dir: Direction,
    frozen: bool,
    state: BadguyState,
    carried: Option<Handle>,   // non-owning; the sector owns the object
    carryName: string,
    phys: Physic,
    action: string,            // name of the sprite action being played
    bbox: Rect)

  /** What the game-object factory returned for the carried object's name. */
  datatype FactoryResult = NoObject | Created(obj: Handle, portable: bool)

  /** 1 when an object is carried, else 0. */
  function Holds(o: OwlState): nat
  {
    if o.carried.Some? then 1 else 0
  }

  function ActionName(d: Direction): string
  {
    if d == Left then "left" else "right"
  }

  /** The horizontal flying velocity for a facing. */
  function Velocity(d: Direction): (v: real)
    ensures v == FlyingSpeed || v == -FlyingSpeed
    ensures v < 0.0 <==> d == Left
  {
    if d == Left then -FlyingSpeed else FlyingSpeed
  }

  /** Velocity, gravity and animation are those of flight in the current direction. */
  predicate FlightMatchesDir(o: OwlState)
  {
    o.phys.vx == Velocity(o.dir) && !o.phys.gravity && o.action == ActionName(o.dir)
  }

  /** The construction of an Owl from its level configuration. */
  function Construct(dir: Direction, config: map<string, string>, bbox: Rect, phys: Physic): (o: OwlState)
    ensures o.dir == dir && o.bbox == bbox && o.phys == phys
    ensures o.carried.None? && !o.frozen && o.state == Active
    ensures CarryKey in config ==> o.carryName == config[CarryKey]
    ensures CarryKey !in config ==> o.carryName == DefaultCarry
    ensures o.action == ActionName(dir)
  {
    var name := if CarryKey in config then config[CarryKey] else DefaultCarry;
    OwlState(dir, false, Active, None, name, phys, ActionName(dir), bbox)
  }

  /** Saving writes the carried object's name under its key, after whatever the base wrote. */
  function Save(o: OwlState, base: map<string, string>): (w: map<string, string>)
    ensures CarryKey in w && w[CarryKey] == o.carryName
    ensures w.Keys == base.Keys + {CarryKey}
    ensures forall k :: k in base && k != CarryKey ==> w[k] == base[k]
  {
    base[CarryKey := o.carryName]
  }

  /** Loading a saved Owl gives back the carried object's name. */
  lemma SaveLoadRoundTrip(o: OwlState, base: map<string, string>, dir: Direction, bbox: Rect, phys: Physic)
    ensures Construct(dir, Save(o, base), bbox, phys).carryName == o.carryName
  {
  }

  /** (Re)entering flight, shared by initialisation and unfreezing. */
  function EnterFlight(o: OwlState): (r: OwlState)
    ensures FlightMatchesDir(r)
    ensures r.(phys := o.phys, action := o.action) == o
    ensures r.phys.vy == o.phys.vy && r.phys.ay == o.phys.ay
  {
    o.(phys := o.phys.(vx := Velocity(o.dir), gravity := false), action := ActionName(o.dir))
  }

  /**
    Initialisation on activation: enter flight, then, unless the editor is
    active, ask the factory for the carried object and keep it when it is
    portable.
   */
  function Initialize(o: OwlState, editorActive: bool, factory: FactoryResult): (r: (OwlState, seq<Event>))
    ensures FlightMatchesDir(r.0)
    ensures r.0 == EnterFlight(o).(carried := r.0.carried)
    ensures Count(r.1, CreateKind) <= 1 && Count(r.1, AddKind) <= 1
    ensures Count(r.1, GrabKind) == 0 && Count(r.1, UngrabKind) == 0
    ensures editorActive ==> r.1 == [] && r.0.carried == o.carried
    ensures !editorActive ==> |r.1| >= 1 && r.1[0] == Create(o.carryName, o.bbox.p1, o.dir)
    ensures !editorActive && factory.NoObject? ==> r.1 == [Create(o.carryName, o.bbox.p1, o.dir)] && r.0.carried == o.carried
    ensures !editorActive && factory.Created? && !factory.portable ==> |r.1| == 1 && r.0.carried.None?
    ensures !editorActive && factory.Created? && factory.portable ==>
              r.1 == [Create(o.carryName, o.bbox.p1, o.dir), AddObject(factory.obj)]
              && r.0.carried == Some(factory.obj)
    ensures Count(r.1, AddKind) == 1 <==> !editorActive && factory.Created? && factory.portable
  {
    var f := EnterFlight(o);
    if editorActive then (f, [])
    else
      var asked := [Create(o.carryName, o.bbox.p1, o.dir)];
      match factory
      case NoObject => (f, asked)
      case Created(h, portable) =>
        if portable then
          CountAppendAll(asked, [AddObject(h)]);
          (f.(carried := Some(h)), asked + [AddObject(h)])
        else (f.(carried := None), asked)
  }

  /**
    The release that guards every exit path: when an object is carried it is
    ungrabbed once and the handle is cleared; otherwise nothing happens.
   */
  function Release(o: OwlState): (r: (OwlState, seq<Event>))
    ensures r.0 == o.(carried := None)
    ensures Count(r.1, UngrabKind) == Holds(o)
    ensures o.carried.Some? ==> r.1 == [Ungrab(o.carried.value, o.dir)]
    ensures o.carried.None? ==> r.1 == []
  {
    match o.carried
    case None => (o, [])
    case Some(h) => (o.(carried := None), [Ungrab(h, o.dir)])
  }

  /** A second release finds nothing to let go. */
  lemma ReleaseIdempotent(o: OwlState)
    ensures Release(Release(o).0).1 == []
    ensures Release(Release(o).0).0 == Release(o).0
  {
  }

  /** The signed horizontal offset applied to the player's box: it leads the direction of travel. */
  function LeadOffset(d: Direction): (off: real)
    ensures off == ActivationDistance || off == -ActivationDistance
    ensures off > 0.0 <==> d == Left
  {
    if d == Left then ActivationDistance else -ActivationDistance
  }

  /**
    Whether the nearest player (absent when there is none) is below the Owl
    and, after the player's box is moved by the lead offset, horizontally
    overlapping it.
   */
  function IsAbovePlayer(o: OwlState, player: Option<Rect>): (r: bool)
    ensures player.None? ==> !r
    ensures player.Some? ==>
              (r <==> IsBelow(player.value, o.bbox) && OverlapX(ShiftX(player.value, LeadOffset(o.dir)), o.bbox))
  {
    match player
    case None => false
    case Some(p) =>
      var off := LeadOffset(o.dir);
      p.p1.y >= o.bbox.p2.y && p.p2.x + off > o.bbox.p1.x && p.p1.x + off < o.bbox.p2.x
  }

  /**
    The drop test as a window for the player's left edge: with a player box
    of width w, the Owl lets go exactly when the player is below it and its
    left edge lies strictly between the Owl's left edge minus the lead offset
    minus w and the Owl's right edge minus the lead offset.  The bounds are
    excluded: a player on the boundary does not trigger the drop.
   */
  lemma ActivationWindow(o: OwlState, p: Rect)
    ensures var off := LeadOffset(o.dir);
            var w := p.p2.x - p.p1.x;
            IsAbovePlayer(o, Some(p)) <==>
              IsBelow(p, o.bbox) && o.bbox.p1.x - off - w < p.p1.x < o.bbox.p2.x - off
  {
  }

  /**
    For an Owl no wider than the activation distance, the drop happens only
    while the player's box still starts ahead of the Owl's leading edge in
    its direction of travel.
   */
  lemma ActivationRequiresLead(o: OwlState, p: Rect)
    requires o.bbox.p2.x - o.bbox.p1.x <= ActivationDistance
    requires IsAbovePlayer(o, Some(p))
    ensures o.dir == Left ==> p.p1.x < o.bbox.p1.x
    ensures o.dir == Right ==> p.p2.x > o.bbox.p2.x
  {
  }

  /**
    For an Owl no wider than the activation distance, a player whose box lies
    within the Owl's horizontal span never triggers the drop.
   */
  lemma ActivationNotWithinSpan(o: OwlState, p: Rect)
    requires o.bbox.p2.x - o.bbox.p1.x <= ActivationDistance
    requires o.bbox.p1.x <= p.p1.x && p.p2.x <= o.bbox.p2.x
    ensures !IsAbovePlayer(o, Some(p))
  {
  }

  /** The test is symmetric: mirroring both boxes and the facing gives the same answer. */
  lemma ActivationMirror(o: OwlState, p: Rect)
    ensures IsAbovePlayer(o, Some(p)) ==
            IsAbovePlayer(o.(dir := Flip(o.dir), bbox := Mirror(o.bbox)), Some(Mirror(p)))
  {
  }

  /** The test depends only on the relative position of the two boxes. */
  lemma ActivationTranslate(o: OwlState, p: Rect, d: Vec)
    ensures IsAbovePlayer(o, Some(p)) == IsAbovePlayer(o.(bbox := Translate(o.bbox, d)), Some(Translate(p, d)))
  {
  }

  /** Where the carried object is held: 16 left of the bottom centre, 3 below the bottom edge. */
  function DropAnchor(b: Rect): (a: Vec)
    ensures a.y == b.p2.y + AnchorGapY && a.y > b.p2.y
    ensures a.x + AnchorShiftX == BottomAnchor(b).x
  {
    Vec(BottomAnchor(b).x - AnchorShiftX, BottomAnchor(b).y + AnchorGapY)
  }

  /** The anchor is too close to either side of a sector of the given width. */
  function NearEdge(x: real, width: real): (r: bool)
    ensures r <==> !(EdgeMargin < x < width - EdgeMargin)
  {
    x <= EdgeMargin || x + EdgeMargin >= width
  }

  /**
    One tick.  The base update first moves the Owl (its new box and vertical
    speed are inputs); then, unless frozen, a carried object is dropped when
    the player is below or the anchor is near the sector's edge, and is
    otherwise pinned at the anchor.
   */
  function ActiveUpdate(o: OwlState, moved: Rect, vy: real, player: Option<Rect>, width: real): (r: (OwlState, seq<Event>))
    ensures |r.1| >= 1 && r.1[0] == BaseActiveUpdate
    ensures r.0 == o.(bbox := moved, phys := o.phys.(vy := vy), carried := r.0.carried)
    ensures r.0.carried.Some? ==> r.0.carried == o.carried
    ensures Count(r.1, CreateKind) == 0 && Count(r.1, AddKind) == 0
    ensures Count(r.1, GrabKind) + Count(r.1, UngrabKind) <= 1
    ensures o.frozen || o.carried.None? ==> r.1 == [BaseActiveUpdate] && r.0.carried == o.carried
    ensures !o.frozen && o.carried.Some? ==> Count(r.1, GrabKind) + Count(r.1, UngrabKind) == 1
    ensures o.carried.Some? ==> (r.0.carried.None? <==> Count(r.1, UngrabKind) == 1)
    ensures Count(r.1, UngrabKind) == 1 <==>
              !o.frozen && o.carried.Some? &&
              (IsAbovePlayer(r.0, player) || NearEdge(DropAnchor(moved).x, width))
    ensures o.carried.Some? && Count(r.1, UngrabKind) == 1 ==>
              r.1 == [BaseActiveUpdate, Ungrab(o.carried.value, o.dir)]
    ensures o.carried.Some? && Count(r.1, GrabKind) == 1 ==>
              r.1 == [BaseActiveUpdate, Grab(o.carried.value, DropAnchor(moved), o.dir)]
              && EdgeMargin < DropAnchor(moved).x < width - EdgeMargin
  {
    var o1 := o.(bbox := moved, phys := o.phys.(vy := vy));
    if o.frozen then (o1, [BaseActiveUpdate])
    else
      match o1.carried
      case None => (o1, [BaseActiveUpdate])
      case Some(h) =>
        if !IsAbovePlayer(o1, player) then
          var pos := DropAnchor(moved);
          if NearEdge(pos.x, width) then
            (o1.(carried := None), [BaseActiveUpdate, Ungrab(h, o.dir)])
          else
            (o1, [BaseActiveUpdate, Grab(h, pos, o.dir)])
        else
          (o1.(carried := None), [BaseActiveUpdate, Ungrab(h, o.dir)])
  }

  /** A hit on a left or right side only, with neither top nor bottom. */
  predicate SideOnly(hit: Hit)
  {
    (hit.left || hit.right) && !hit.top && !hit.bottom
  }

  /**
    Collision with a solid: when frozen the base handles it; otherwise a top
    or bottom hit stops vertical motion and a side hit turns the Owl round.
   */
  function CollisionSolid(o: OwlState, hit: Hit): (r: (OwlState, seq<Event>))
    ensures r.0.carried == o.carried && r.0.frozen == o.frozen && r.0.state == o.state
    ensures o.frozen ==> r.0 == o && r.1 == [BaseCollisionSolid(hit)]
    ensures !o.frozen ==> r.1 == []
    ensures !o.frozen && (hit.top || hit.bottom) ==> r.0 == o.(phys := o.phys.(vy := 0.0))
    ensures !o.frozen && SideOnly(hit) ==>
              r.0.dir == Flip(o.dir)
              && r.0.phys.vx == Velocity(r.0.dir)
              && r.0.action == ActionName(r.0.dir)
              && r.0 == o.(dir := r.0.dir, action := r.0.action, phys := o.phys.(vx := r.0.phys.vx))
    ensures !hit.left && !hit.right && !hit.top && !hit.bottom ==> r.0 == o
    ensures r.0.dir != o.dir <==> !o.frozen && SideOnly(hit)
  {
    if o.frozen then (o, [BaseCollisionSolid(hit)])
    else if hit.top || hit.bottom then (o.(phys := o.phys.(vy := 0.0)), [])
    else if hit.left || hit.right then
      if o.dir == Left then
        (o.(action := "right", dir := Right, phys := o.phys.(vx := FlyingSpeed)), [])
      else
        (o.(action := "left", dir := Left, phys := o.phys.(vx := -FlyingSpeed)), [])
    else (o, [])
  }

  /** Two side hits in a row bring a flying Owl back to where it started. */
  lemma SideBounceTwiceRestores(o: OwlState, hit: Hit)
    requires !o.frozen && SideOnly(hit) && FlightMatchesDir(o)
    ensures CollisionSolid(CollisionSolid(o, hit).0, hit).0 == o
  {
  }

  /**
    Falling dead: play the falling sound, stop vertical motion, switch gravity
    on, mark the state falling, release the carried object and start the
    dead-script.
   */
  function KillFall(o: OwlState): (r: (OwlState, seq<Event>))
    ensures r.0.state == Falling && r.0.carried.None?
    ensures r.0.phys.vy == 0.0 && r.0.phys.ay == 0.0 && r.0.phys.gravity
    ensures r.0 == o.(state := Falling, carried := None, phys := r.0.phys) && r.0.phys.vx == o.phys.vx
    ensures Count(r.1, UngrabKind) == Holds(o)
    ensures Count(r.1, GrabKind) == 0 && Count(r.1, CreateKind) == 0 && Count(r.1, AddKind) == 0
    ensures |r.1| >= 2 && r.1[0] == FallSound && r.1[|r.1| - 1] == DeadScript
  {
    var o1 := o.(phys := o.phys.(vy := 0.0, ay := 0.0, gravity := true), state := Falling);
    var (o2, released) := Release(o1);
    CountAppendAll([FallSound], released);
    CountAppendAll([FallSound] + released, [DeadScript]);
    (o2, [FallSound] + released + [DeadScript])
  }

  /**
    Being squished: the nearest player (if any) bounces off, the carried
    object is released, and the Owl falls dead.  The squish is always
    reported as handled.
   */
  function CollisionSquished(o: OwlState, player: Option<Rect>): (r: (OwlState, seq<Event>, bool))
    ensures r.2
    ensures r.0.state == Falling && r.0.carried.None?
    ensures r.0 == KillFall(o).0
    ensures Count(r.1, UngrabKind) == Holds(o)
    ensures Count(r.1, GrabKind) == 0 && Count(r.1, CreateKind) == 0 && Count(r.1, AddKind) == 0
    ensures Bounce in r.1 <==> player.Some?
    ensures o.carried.Some? ==> Ungrab(o.carried.value, o.dir) in r.1
  {
    var bounce := if player.Some? then [Bounce] else [];
    var (o1, released) := Release(o);
    var (o2, fell) := KillFall(o1);
    CountAppendAll(bounce, released);
    CountAppendAll(bounce + released, fell);
    assert (bounce + released + fell)[|bounce|..|bounce| + |released|] == released;
    (o2, bounce + released + fell, true)
  }

  /** Freezing: release the carried object, let gravity act, then the base freezes. */
  function Freeze(o: OwlState): (r: (OwlState, seq<Event>))
    ensures r.0.frozen && r.0.phys.gravity && r.0.carried.None?
    ensures r.0 == o.(frozen := true, carried := None, phys := o.phys.(gravity := true))
    ensures Count(r.1, UngrabKind) == Holds(o)
    ensures Count(r.1, GrabKind) == 0 && Count(r.1, CreateKind) == 0 && Count(r.1, AddKind) == 0
    ensures |r.1| >= 1 && r.1[|r.1| - 1] == BaseFreeze
  {
    var (o1, released) := Release(o);
    CountAppendAll(released, [BaseFreeze]);
    (o1.(phys := o1.phys.(gravity := true), frozen := true), released + [BaseFreeze])
  }

  /** Unfreezing: the base unfreezes, then the Owl re-enters flight as on initialisation. */
  function Unfreeze(o: OwlState): (r: (OwlState, seq<Event>))
    ensures !r.0.frozen && FlightMatchesDir(r.0)
    ensures r.0 == Initialize(o.(frozen := false), true, NoObject).0
    ensures r.0.carried == o.carried && r.0.dir == o.dir && r.0.state == o.state
    ensures r.1 == [BaseUnfreeze]
  {
    (EnterFlight(o.(frozen := false)), [BaseUnfreeze])
  }

  /** An Owl can always be frozen. */
  function IsFreezable(o: OwlState): (r: bool)
    ensures r
  {
    true
  }

  /** Catching fire: release the carried object, then the base ignites. */
  function Ignite(o: OwlState): (r: (OwlState, seq<Event>))
    ensures r.0 == o.(carried := None)
    ensures Count(r.1, UngrabKind) == Holds(o)
    ensures Count(r.1, GrabKind) == 0 && Count(r.1, CreateKind) == 0 && Count(r.1, AddKind) == 0
    ensures o.carried.Some? ==> r.1 == [Ungrab(o.carried.value, o.dir), BaseIgnite]
    ensures o.carried.None? ==> r.1 == [BaseIgnite]
  {
    var (o1, released) := Release(o);
    CountAppendAll(released, [BaseIgnite]);
    (o1, released + [BaseIgnite])
  }

  /**
    Initialisation does not look at an existing handle: were it run again
    while an object is carried, the old handle would be replaced without
    being ungrabbed.
   */
  lemma ReinitializeForgetsHandle(o: OwlState, h: Handle, h': Handle)
    requires o.carried == Some(h) && h' != h
    ensures Initialize(o, false, Created(h', true)).0.carried == Some(h')
    ensures Count(Initialize(o, false, Created(h', true)).1, UngrabKind) == 0
  {
  }
}

=== FILE: trace.dfy ===
/**
  Whole lifetimes of an Owl: after construction and initialisation, the game
  drives it with a sequence of ticks and hooks.  The lemmas here are the
  guarantees that hold over every such sequence: the carried object is
  released at most once and never replaced, every exit from flight leaves no
  handle behind, and velocity and animation follow the facing while flying.
 */
module OwlTrace {
  import opened Maybe
  import opened Geometry
  import opened Events
  import opened Owl

  /** One thing the game can do to an Owl after initialisation. */
  datatype Input =
    | Tick(moved: Rect, vy: real, player: Option<Rect>, width: real)
    | Solid(hit: Hit)
    | Squished(player: Option<Rect>)
    | Kill
    | DoFreeze
    | DoUnfreeze
    | DoIgnite

  /** The Owl's state invariant between handler calls. */
  predicate Consistent(o: OwlState)
  {
    && (o.carried.Some? ==> !o.frozen && o.state == Active)
    && (!o.frozen && o.state == Active ==> FlightMatchesDir(o))
  }

  function Step(o: OwlState, i: Input): (r: (OwlState, seq<Event>))
    ensures Count(r.1, UngrabKind) + Holds(r.0) == Holds(o)
    ensures r.0.carried.Some? ==> r.0.carried == o.carried
    ensures Count(r.1, CreateKind) == 0 && Count(r.1, AddKind) == 0
    ensures o.carried.Some? ==> OnlyHandle(r.1, o.carried.value)
    ensures o.carried.None? ==> NoHandle(r.1)
    ensures Consistent(o) ==> Consistent(r.0)
    ensures r.0.dir != o.dir ==> i.Solid? && !o.frozen && SideOnly(i.hit)
    ensures i.Solid? && !o.frozen && SideOnly(i.hit) ==> r.0.dir == Flip(o.dir)
    ensures r.0.carryName == o.carryName
  {
    match i
    case Tick(moved, vy, player, width) => ActiveUpdate(o, moved, vy, player, width)
    case Solid(hit) => CollisionSolid(o, hit)
    case Squished(player) =>
      var (o1, log, _) := CollisionSquished(o, player);
      (o1, log)
    case Kill => KillFall(o)
    case DoFreeze => Freeze(o)
    case DoUnfreeze => Unfreeze(o)
    case DoIgnite => Ignite(o)
  }

  /** Feed the inputs to the Owl in order, concatenating the event logs. */
  function Run(o: OwlState, ins: seq<Input>): (OwlState, seq<Event>)
    decreases |ins|
  {
    if |ins| == 0 then (o, [])
    else
      var (o1, first) := Step(o, ins[0]);
      var (o2, rest) := Run(o1, ins[1..]);
      (o2, first + rest)
  }

  /**
    Conservation of the carried object over any run: the number of ungrabs
    plus whether an object is still held equals whether one was held at the
    start.  So it is ungrabbed at most once, and exactly once if let go.
   */
  lemma {:induction false} RunReleasesOnce(o: OwlState, ins: seq<Input>)
    ensures Count(Run(o, ins).1, UngrabKind) + Holds(Run(o, ins).0) == Holds(o)
    decreases |ins|
  {
    if |ins| > 0 {
      var (o1, first) := Step(o, ins[0]);
      RunReleasesOnce(o1, ins[1..]);
      CountAppendAll(first, Run(o1, ins[1..]).1);
    }
  }

  /** No run acquires an object: a handle held at the end is the one held at the start, and nothing is created or registered. */
  lemma {:induction false} RunNeverAcquires(o: OwlState, ins: seq<Input>)
    ensures Run(o, ins).0.carried.Some? ==> Run(o, ins).0.carried == o.carried
    ensures Count(Run(o, ins).1, CreateKind) == 0 && Count(Run(o, ins).1, AddKind) == 0
    decreases |ins|
  {
    if |ins| > 0 {
      var (o1, first) := Step(o, ins[0]);
      RunNeverAcquires(o1, ins[1..]);
      CountAppendAll(first, Run(o1, ins[1..]).1);
    }
  }

  /** Every grab and ungrab of a run names the handle held at its start; none happens without one. */
  lemma {:induction false} RunTouchesOnlyHeld(o: OwlState, ins: seq<Input>)
    ensures o.carried.Some? ==> OnlyHandle(Run(o, ins).1, o.carried.value)
    ensures o.carried.None? ==> NoHandle(Run(o, ins).1)
    decreases |ins|
  {
    if |ins| > 0 {
      var (o1, first) := Step(o, ins[0]);
      RunTouchesOnlyHeld(o1, ins[1..]);
      var rest := Run(o1, ins[1..]).1;
      assert Run(o, ins).1 == first + rest;
      if o.carried.Some? {
        var h := o.carried.value;
        forall j | 0 <= j < |first + rest| && NamesObject((first + rest)[j])
          ensures (first + rest)[j].obj == h
        {
          if j >= |first| {
            assert (first + rest)[j] == rest[j - |first|];
            assert o1.carried.Some? by {
              assert NamesObject(rest[j - |first|]);
            }
          }
        }
      } else {
        assert o1.carried.None?;
        assert forall j :: 0 <= j < |first + rest| ==>
          (first + rest)[j] == if j < |first| then first[j] else rest[j - |first|];
      }
    }
  }

  /** The state invariant holds after any run from a consistent state. */
  lemma {:induction false} RunKeepsConsistent(o: OwlState, ins: seq<Input>)
    requires Consistent(o)
    ensures Consistent(Run(o, ins).0)
    decreases |ins|
  {
    if |ins| > 0 {
      RunKeepsConsistent(Step(o, ins[0]).0, ins[1..]);
    }
  }

  /** How many inputs of a run are side-only hits that reach an unfrozen Owl. */
  function Turns(o: OwlState, ins: seq<Input>): nat
    decreases |ins|
  {
    if |ins| == 0 then 0
    else
      (if ins[0].Solid? && !o.frozen && SideOnly(ins[0].hit) then 1 else 0)
      + Turns(Step(o, ins[0]).0, ins[1..])
  }

  /** The facing changes only by side collisions: after a run it is flipped once per turn. */
  lemma {:induction false} RunFacing(o: OwlState, ins: seq<Input>)
    ensures Run(o, ins).0.dir == (if Turns(o, ins) % 2 == 0 then o.dir else Flip(o.dir))
    decreases |ins|
  {
    if |ins| > 0 {
      var o1 := Step(o, ins[0]).0;
      RunFacing(o1, ins[1..]);
      assert Run(o, ins).0 == Run(o1, ins[1..]).0;
      if ins[0].Solid? && !o.frozen && SideOnly(ins[0].hit) {
        assert o1.dir == Flip(o.dir);
        FlipInvolution(o.dir);
      } else {
        assert o1.dir == o.dir;
      }
    }
  }

  /**
    A whole lifetime: construction, initialisation, then any inputs.  At most
    one object is created and registered, it is ungrabbed at most once, every
    grab and ungrab names it, and the invariant holds at the end.
   */
  lemma Lifetime(dir: Direction, config: map<string, string>, bbox: Rect, phys: Physic,
                 editorActive: bool, factory: FactoryResult, ins: seq<Input>)
    ensures var o0 := Construct(dir, config, bbox, phys);
            var (o1, setup) := Initialize(o0, editorActive, factory);
            var (o2, played) := Run(o1, ins);
            && Count(setup + played, CreateKind) <= 1
            && Count(setup + played, AddKind) == Holds(o1)
            && Count(setup + played, UngrabKind) <= Holds(o1)
            && (o1.carried.Some? ==> OnlyHandle(played, o1.carried.value))
            && (o1.carried.None? ==> NoHandle(played))
            && Consistent(o2)
  {
    var o0 := Construct(dir, config, bbox, phys);
    var (o1, setup) := Initialize(o0, editorActive, factory);
    var played := Run(o1, ins).1;
    RunReleasesOnce(o1, ins);
    RunNeverAcquires(o1, ins);
    RunTouchesOnlyHeld(o1, ins);
    RunKeepsConsistent(o1, ins);
    CountAppendAll(setup, played);
  }
}
